=== FILE: README.md ===
# Network bring-up sequencer and DHCP address capture, in Dafny

This project models the two stateful components of a Zephyr firmware that
brings up an IPv4 interface and starts an HTTP(S) server:

- **The bring-up and service lifecycle sequencer** (`src/HTTPServer.c`).
  `http_server_init_and_start` checks its config and the default interface.
  It then configures the address, by DHCP or statically. It registers the TLS
  credentials only when HTTPS is enabled, and finally starts the HTTP server.
  Any step can fail. The first failure is returned and no later step runs.
  `http_server_stop_service` stops the server and tears down DHCP.
  `http_server_get_ip_info` reports the interface's first unicast address.
  A network-management event handler keeps the `dhcp_configured` flag and
  gives a binary semaphore that `configure_dhcp` waits on.
- **The DHCP address capture** (`src/DHCPClient.c`). On an address-added
  event, `handler` scans the interface's IPv4 unicast table. Each
  DHCP-assigned entry, with the interface's router and lease time, is copied
  into the global `TCPInfoDHCP` record, which is then marked valid.
  `DHCP_Client_TCP_infos_get` hands that record out only once it is valid.

Layout:

- `net_if.dfy` (module `NetIf`): the shared shapes of Zephyr data, namely
  addresses, address types, unicast entries, the interface's IPv4
  configuration (`iface->config.ip.ipv4`) and management events, and the
  error numbers. Their values follow the numbering of Zephyr's C library
  (ENODEV 19, EINVAL 22, ENONET 64, ETIMEDOUT 116). The proofs rely only on
  their being distinct and positive.
- `http_server_spec.dfy` (module `HttpServerSpec`): `NetState` gathers the
  C file's module statics. These are the flag, the semaphore count, whether
  `mgmt_cb` is registered and the stored `server_config`. It also records
  whether this module has the DHCP client running, and a trace of the calls
  that act on the interface, the callback list, the DHCP client, the TLS
  credential store and the HTTP server. Queries (`inet_pton`,
  `net_if_get_default`) are inputs and are not traced. The semaphore calls
  (`k_sem_init`, `k_sem_give`, `k_sem_take`) are modelled by the semaphore
  count, and `net_mgmt_init_event_callback` and `net_addr_ntop` are not
  traced. One function per entry point says what it returns and what state
  it leaves.
- `http_server.dfy` (module `HttpServer`): class `Server` holds those
  statics as fields. Its methods are the C functions, written as
  straight-line code with early returns. Each is proved to return the code
  and leave the state that the function of the same name prescribes, and to
  keep the semaphore at or below its limit of one.
- `http_server_proofs.dfy` (module `HttpServerProofs`): the properties of
  the sequencer.
- `dhcp_client.dfy` (module `DhcpClient`): `Scan` describes one pass of the
  handler's loop over the unicast table. Class `Client` holds `TCPInfoDHCP`;
  its `Handler` loop is proved to follow `Scan`. The file also holds the
  properties of the scan.

Each Zephyr call is an input giving its result. These include whether
`inet_pton` accepts a string, what `net_if_ipv4_addr_add`, `net_dhcpv4_start`,
each `tls_credential_add` and `http_server_start`/`stop` return, and whether a
default interface exists. They are bundled as `Outcomes` or passed as
parameters. The compile-time switches
`CONFIG_NET_SAMPLE_HTTPS_SERVICE`, `CONFIG_NET_SOCKETS_SOCKOPT_TLS` and
`CONFIG_MBEDTLS_KEY_EXCHANGE_PSK_ENABLED` are the `Build` record.

The 30 second `k_sem_take` is modelled as follows. The events that arrive
during the wait are delivered to the handler in order, and only while the
callback is registered. Then the semaphore is taken. It succeeds if it was
given (count 1), and otherwise the wait times out, since nothing else gives
it. This makes every outcome of `configure_dhcp` reachable, including -ENONET:
a DHCP_BOUND followed by an ADDR_DEL before the waiting thread runs. On each
failure path `mgmt_cb` stays registered until `configure_dhcp` removes it, so
a second list of events (`lateEvents`) reaches the handler in that window.
A DHCP_BOUND there leaves `dhcp_configured` set, and the semaphore given,
even though -ETIMEDOUT, -ENONET or the start error is returned.

Behaviours of the code worth knowing, which the model keeps:

- The loop in `handler` has no `break`. Each DHCP entry overwrites the
  previous one, so the last DHCP-tagged unicast entry is captured, not the
  first. A DHCP stop is also requested once per entry.
- There is no bring-up state machine, no "busy" error and no separate
  "not ready" result. Beyond the `dhcp_configured` flag there is no bring-up
  state, and the entry points return the codes modelled here.
- `http_server_stop_service` returns the result of `http_server_stop` when
  it is negative and 0 otherwise. So a second stop succeeds only if the
  server stop does, and the teardown it performs depends on whether it finds
  a default interface.

## Model

| member | source | states |
|---|---|---|
| `HttpServer.Server.constructor` | src/HTTPServer.c:28-31 | The statics start zeroed: flag false, semaphore 0, no callback, no DHCP client, zero config, no calls made. |
| `HttpServer.Server.HandleEvent` | src/HTTPServer.c:36-62 | The handler method leaves exactly the state `HandleEvent` prescribes and keeps the semaphore at or below 1. |
| `HttpServerProofs.HandleEventEffect` | src/HTTPServer.c:40-61 | DHCP_BOUND sets the flag and makes the semaphore available, saturating at 1. ADDR_DEL clears the flag. ADDR_ADD, DHCP_START, DHCP_STOP and any other event change nothing. |
| `HttpServerProofs.DeliverAllUnregistered` | src/HTTPServer.c:127-134 | With `mgmt_cb` not registered, no sequence of events changes any state. |
| `HttpServerProofs.DeliverAllEffect` | src/HTTPServer.c:40-61 | While registered, events change only the flag and the semaphore. The flag ends set iff the last DHCP_BOUND has no later ADDR_DEL, or it was set and no ADDR_DEL came. The semaphore ends available iff some DHCP_BOUND came or it already was, and never exceeds 1. |
| `HttpServer.Server.Deliver` | src/HTTPServer.c:127-134 | One event changes the statics exactly as `Deliver` says: through the handler while `mgmt_cb` is registered, not at all otherwise. The semaphore stays at or below 1. |
| `HttpServer.Server.DeliverEvents` | src/HTTPServer.c:127-134 | The loop delivering a list of events leaves exactly the state `DeliverAll` prescribes, whose effect `DeliverAllEffect` states. |
| `HttpServer.Server.AwaitBound` | src/HTTPServer.c:144-147 | After the events are delivered, the semaphore take succeeds iff it was given, and the take consumes it. |
| `HttpServer.Server.ConfigureStaticIp` | src/HTTPServer.c:67-114 | The method returns and leaves what `ConfigureStaticIp` prescribes. |
| `HttpServerProofs.StaticIpOutcomes` | src/HTTPServer.c:74-113 | A missing or unparsable address returns -EINVAL and applies nothing. Otherwise the address add is the first call and its failure code is returned, or 0. The traced calls made are exactly: the address add alone if it fails, else the address add, then the netmask call if the netmask is present and parses, then the gateway call likewise. No other state changes. |
| `HttpServerProofs.StaticIpOptionalSettings` | src/HTTPServer.c:92-113 | After a successful add, the netmask (resp. gateway) is set iff present and parsable, and only to the configured value. An invalid one is skipped and the result is still 0. |
| `HttpServerProofs.StaticIpIgnoresOptionalFields` | src/HTTPServer.c:92-113 | The return code does not depend on the netmask or gateway fields or on whether they parse. |
| `HttpServer.Server.ConfigureDhcp` | src/HTTPServer.c:119-163 | The method returns and leaves what `ConfigureDhcp` prescribes. |
| `HttpServerProofs.ConfigureDhcpOutcomes` | src/HTTPServer.c:137-162 | Start failure: the start error is returned and the callback is removed. No DHCP_BOUND: -ETIMEDOUT, DHCP stopped and the callback removed. Woken but the flag cleared by a later ADDR_DEL: -ENONET, the callback removed and DHCP left running. On each failure the flag and semaphore are those left by the events before the removal, so a late DHCP_BOUND leaves the flag set after a failure. Success (0) iff the start succeeded and the last flag event is DHCP_BOUND; the callback then stays registered, the flag set and the semaphore consumed. |
| `HttpServerProofs.LateEventsIgnoredAfterDhcpFailure` | src/HTTPServer.c:138-158 | Once a failed `configure_dhcp` has returned, its callback is removed, so events delivered afterwards change nothing. |
| `HttpServer.Server.SetupTls` | src/HTTPServer.c:165-214 | The straight-line registration code returns and leaves what `SetupTls` prescribes. |
| `HttpServerProofs.RegisterStopsAtFirstFailure` | src/HTTPServer.c:171-205 | The registrations made are a prefix of the requested order, and every one but the last succeeded. The result is the last one's error, or 0 when all succeeded. Only the trace changes, and nothing is unregistered. |
| `HttpServerProofs.SetupTlsOrder` | src/HTTPServer.c:165-214 | The order is certificate, then private key, then PSK and PSK ID when PSK is compiled in. It stops at the first failure and returns its code. Without HTTPS or TLS sockets compiled in, nothing is registered and 0 is returned. |
| `HttpServer.Server.InitAndStart` | src/HTTPServer.c:216-286 | The method returns and leaves what `InitAndStart` prescribes. |
| `HttpServerProofs.InitRejectsBeforeConfiguring` | src/HTTPServer.c:221-234 | A null config returns -EINVAL with no change at all. No default interface returns -ENODEV having only stored the config. Neither makes any traced call. |
| `HttpServerProofs.AddressStepPhase` | src/HTTPServer.c:238-251 | The address step (DHCP if `use_dhcp`, else static) makes only address-configuration calls, keeps the stored config and never returns a positive code. |
| `HttpServerProofs.InitCallsSplit` | src/HTTPServer.c:238-268 | The traced calls made are exactly those of the address step, then those of the TLS step (`http_server_setup_tls`), then the server start. TLS runs only with HTTPS and after a successful address step, and a TLS failure is the whole result. The start runs iff all earlier steps succeeded. |
| `HttpServerProofs.InitStepsInOrder` | src/HTTPServer.c:238-268 | Address calls precede credential calls, which precede the server start. A failed address step is the whole result. A credential registration implies HTTPS and a configured address. The server start is attempted iff address and (with HTTPS) TLS succeeded. |
| `HttpServerProofs.InitReturnsFirstFailure` | src/HTTPServer.c:238-268 | The result is 0 iff every step run succeeded. Otherwise it is the code of the first failing step: address, then TLS, then server start. |
| `HttpServer.Server.StopService` | src/HTTPServer.c:288-312 | The method returns and leaves what `StopService` prescribes. |
| `HttpServerProofs.StopServiceEffect` | src/HTTPServer.c:294-311 | A failed server stop returns its error and changes nothing else. Otherwise, DHCP stop, callback removal and clearing the flag happen iff the stored `use_dhcp` and the flag are set and an interface exists. The result is then 0. |
| `HttpServerProofs.StopServiceTwice` | src/HTTPServer.c:294-308 | After a successful stop, a second stop tears nothing further down and makes only its own server-stop call, unless the first found no default interface and the second does. In that case, with DHCP used, the flag set and its own server stop successful, the second stop stops DHCP, removes the callback and clears the flag. |
| `HttpServerSpec.GetIpInfo` | src/HTTPServer.c:314-337 | The result is -EINVAL iff the buffer is null or shorter than 16. It is -ENODEV iff otherwise there is no interface. It is -ENONET iff otherwise there is no IPv4 config or unicast[0] is overridable. Otherwise it is 0, and only then is unicast[0]'s address written. |
| `DhcpClient.Client.constructor` | src/DHCPClient.c:32-34 | `TCPInfoDHCP` starts not valid and zeroed, with no DHCP stop requested. |
| `DhcpClient.Client.Handler` | src/DHCPClient.c:52-97 | The loop over the unicast table leaves the record exactly as `Handle` (a `Scan` of the table on ADDR_ADD) prescribes. |
| `DhcpClient.HandleIgnoresOtherEvents` | src/DHCPClient.c:58-61 | Any event other than IPv4 ADDR_ADD leaves the record unchanged. |
| `DhcpClient.DhcpEntries` | src/DHCPClient.c:63-70 | The entries kept are DHCP-tagged entries of the table, every DHCP-tagged entry is kept, and a table of DHCP entries only is kept whole. |
| `DhcpClient.DhcpEntriesCounts` | src/DHCPClient.c:63-70 | Each DHCP-tagged entry occurs among the kept entries exactly as often as in the table, and no other entry occurs there. |
| `DhcpClient.ScanSkipsOtherEntries` | src/DHCPClient.c:63-70 | Scanning the table gives the same record as scanning only its DHCP-tagged entries, so other entries contribute nothing. |
| `DhcpClient.ScanWithoutDhcpEntry` | src/DHCPClient.c:63-96 | With no DHCP-tagged entry, the record, its validity and the stop count are untouched. |
| `DhcpClient.ScanKeepsLastDhcpEntry` | src/DHCPClient.c:87-92 | The stored address and netmask are those of the last DHCP-tagged entry in table order. Router and lease time are the interface's. The record is valid. |
| `DhcpClient.ScanValidity` | src/DHCPClient.c:63-96 | After a scan, the record is valid iff it already was or the table holds a DHCP-tagged entry. |
| `DhcpClient.HandleKeepsValid` | src/DHCPClient.c:92 | No event clears validity: once valid, always valid. |
| `DhcpClient.ScanStopsPerDhcpEntry` | src/DHCPClient.c:95 | One DHCP stop is requested per DHCP-tagged entry found. |
| `DhcpClient.Client.TcpInfosGet` | src/DHCPClient.c:110-122 | Returns true iff the out-pointer is non-null and the record is valid. On true it copies the record exactly. On false it leaves the output unchanged. The record is never changed. |

## Left out

- Zephyr internals are not modelled: `inet_pton`, `net_addr_ntop`, the
  address table, TLS credential storage, the DHCP protocol and the HTTP
  engine. Each call is an input giving its result. The calls' effects on the
  interface are recorded as a trace of the calls made, not as interface state.
- Timing and threading are not modelled: the 30 second timeout, the
  network-management thread and the semaphore's blocking are replaced by
  ordered lists of delivered events. The take, the flag test, the
  `net_dhcpv4_stop` call and the callback removal of `configure_dhcp` are
  separate steps. But all events of the failure window (`lateEvents`) are
  delivered before `net_dhcpv4_stop`, not interleaved with it. The
  handler does not touch what that call changes, so the resulting state is
  the same. Events during `net_dhcpv4_start` count as `lateEvents` on the
  start-failure path, and as wait events otherwise.
- The event mask given to `net_mgmt_init_event_callback` is not modelled
  separately. Events outside it are `OtherEvent`, which the handler ignores
  in either case.
- `dhcpRunning` is not changed by the DHCP_START and DHCP_STOP events. It
  records whether this module has asked Zephyr to start or stop DHCP; the
  handler only logs those events.
- The call to `http_server_get_ip_info` inside `http_server_init_and_start`
  only feeds log lines and does not affect the result, so it is left out
  there. Logging (`LOG_*`, `printk`) is left out everywhere.
- The null `iface->config.ip.ipv4` pointer that `handler` dereferences
  without a check is not modelled: the model always has a unicast table.
- `DHCP_Client_init`, `option_handler` and `start_dhcpv4_client` in
  `src/DHCPClient.c` are not part of this model. They only register
  callbacks, iterate interfaces and log.
- `src/main.c`, `src/HTTPWebsocket.c`, `src/Flash.c`, `src/InductionConfig.c`
  and the browser scripts under `src/static_web_resources/` are not part of
  this model. They hold resource tables, thin wrappers around Zephyr and
  browser code, with no bring-up logic of their own.
- `net_if_ipv4_addr_add` is modelled as returning the `int` that
  `configure_static_ip` stores and tests for a negative value. Zephyr's
  prototype of that function is not part of this model.
- Return codes are unbounded integers. The C `int` width never matters,
  because the code only tests signs and passes codes through.

=== FILE: dhcp_client.dfy ===
/**
  The DHCP address capture of src/DHCPClient.c: on an address-added event
  the handler scans the interface's IPv4 unicast table and copies every
  DHCP-assigned entry, with the interface's router and lease time, into the
  global `TCPInfoDHCP` record, which the getter hands out once it is valid.

  `Scan` says what one pass over the table does to the record; the class
  `Client` holds the record and is proved to follow it.
 */
module DhcpClient {
  import opened NetIf

  /** `tcp_info_t`. */
  datatype TcpInfo = TcpInfo(addr: Ipv4Addr, router: Ipv4Addr, netmask: Ipv4Addr, leaseTime: uint32)

  const ZeroInfo := TcpInfo(ZeroAddr, ZeroAddr, ZeroAddr, 0)

  /** `TCPInfoDHCP`, with the number of DHCP stop requests the handler has made. */
  datatype Capture = Capture(info: TcpInfo, valid: bool, stops: nat)

  /** The static initialiser: not valid, everything zero. */
  const InitialCapture := Capture(ZeroInfo, false, 0)

  /** One iteration of the handler's loop: a DHCP entry overwrites the record,
      marks it valid and requests a DHCP stop; any other entry is skipped. */
  function Visit(c: Capture, e: UnicastEntry, gw: Ipv4Addr, leaseTime: uint32): Capture
  {
    if e.addrType != Dhcp then c
    else Capture(TcpInfo(e.address, gw, e.netmask, leaseTime), true, c.stops + 1)
  }

  /** The handler's loop over `entries`, in table order. */
  function Scan(c: Capture, entries: seq<UnicastEntry>, gw: Ipv4Addr, leaseTime: uint32): Capture
    decreases |entries|
  {
    if |entries| == 0 then c
    else Visit(Scan(c, entries[..|entries| - 1], gw, leaseTime), entries[|entries| - 1], gw, leaseTime)
  }

  /** `handler`: only an IPv4 address-added event triggers a scan. */
  function Handle(c: Capture, event: MgmtEvent, iface: Ipv4Config): Capture
  {
    if event != Ipv4AddrAdd then c else Scan(c, iface.unicast, iface.gw, iface.leaseTime)
  }

  /** The DHCP-assigned entries of `entries`, in order: every entry kept is
      DHCP-tagged and taken from `entries`, and every DHCP-tagged entry is
      kept; an `entries` made of DHCP entries only is kept whole. */
  function DhcpEntries(entries: seq<UnicastEntry>): (r: seq<UnicastEntry>)
    ensures |r| <= |entries|
    ensures forall i :: 0 <= i < |r| ==> r[i].addrType == Dhcp && r[i] in entries
    ensures forall i :: 0 <= i < |entries| && entries[i].addrType == Dhcp ==> entries[i] in r
    ensures (forall i :: 0 <= i < |entries| ==> entries[i].addrType == Dhcp) ==> r == entries
    decreases |entries|
  {
    if |entries| == 0 then []
    else
      var last := entries[|entries| - 1];
      DhcpEntries(entries[..|entries| - 1]) + (if last.addrType == Dhcp then [last] else [])
  }

  /** Each DHCP-tagged entry is kept as often as it occurs in `entries`, and
      no other entry is kept: `DhcpEntries` is a filter, not just a subset. */
  lemma {:induction false} DhcpEntriesCounts(entries: seq<UnicastEntry>)
    ensures forall e :: multiset(DhcpEntries(entries))[e] == if e.addrType == Dhcp then multiset(entries)[e] else 0
    decreases |entries|
  {
    if |entries| > 0 {
      var n := |entries| - 1;
      var p, last := entries[..n], entries[n];
      assert entries == p + [last];
      DhcpEntriesCounts(p);
      var tail := if last.addrType == Dhcp then [last] else [];
      assert DhcpEntries(entries) == DhcpEntries(p) + tail;
      assert multiset(DhcpEntries(entries)) == multiset(DhcpEntries(p)) + multiset(tail);
      assert multiset(entries) == multiset(p) + multiset{last};
    }
  }

  /** Entries not tagged DHCP contribute nothing: scanning the table gives
      the same record as scanning its DHCP entries alone. */
  lemma {:induction false} ScanSkipsOtherEntries(c: Capture, entries: seq<UnicastEntry>, gw: Ipv4Addr, leaseTime: uint32)
    ensures Scan(c, entries, gw, leaseTime) == Scan(c, DhcpEntries(entries), gw, leaseTime)
    decreases |entries|
  {
    if |entries| > 0 {
      var n := |entries| - 1;
      var p, last := entries[..n], entries[n];
      assert entries[..n] == p;
      ScanSkipsOtherEntries(c, p, gw, leaseTime);
      if last.addrType == Dhcp {
        var d := DhcpEntries(p) + [last];
        assert DhcpEntries(entries) == d;
        assert d[..|d| - 1] == DhcpEntries(p);
        assert Scan(c, d, gw, leaseTime) == Visit(Scan(c, DhcpEntries(p), gw, leaseTime), last, gw, leaseTime);
      } else {
        assert DhcpEntries(entries) == DhcpEntries(p) + [];
        assert DhcpEntries(p) + [] == DhcpEntries(p);
      }
    }
  }

  /** One DHCP stop is requested per DHCP entry found. */
  lemma {:induction false} ScanStopsPerDhcpEntry(c: Capture, entries: seq<UnicastEntry>, gw: Ipv4Addr, leaseTime: uint32)
    ensures Scan(c, entries, gw, leaseTime).stops == c.stops + |DhcpEntries(entries)|
    decreases |entries|
  {
    if |entries| > 0 {
      ScanStopsPerDhcpEntry(c, entries[..|entries| - 1], gw, leaseTime);
    }
  }

  /** With no DHCP entry in the table the record is left exactly as it was. */
  lemma {:induction false} ScanWithoutDhcpEntry(c: Capture, entries: seq<UnicastEntry>, gw: Ipv4Addr, leaseTime: uint32)
    requires forall i :: 0 <= i < |entries| ==> entries[i].addrType != Dhcp
    ensures Scan(c, entries, gw, leaseTime) == c
    decreases |entries|
  {
    if |entries| > 0 {
      ScanWithoutDhcpEntry(c, entries[..|entries| - 1], gw, leaseTime);
    }
  }

  /** Each DHCP entry overwrites the previous one, so the record ends up with
      the address and netmask of the last DHCP entry in table order, and the
      router and lease time of the interface. */
  lemma {:induction false} ScanKeepsLastDhcpEntry(c: Capture, entries: seq<UnicastEntry>, gw: Ipv4Addr, leaseTime: uint32, k: nat)
    requires k < |entries| && entries[k].addrType == Dhcp
    requires forall j :: k < j < |entries| ==> entries[j].addrType != Dhcp
    ensures Scan(c, entries, gw, leaseTime).valid
    ensures Scan(c, entries, gw, leaseTime).info == TcpInfo(entries[k].address, gw, entries[k].netmask, leaseTime)
    decreases |entries|
  {
    var n := |entries| - 1;
    if k < n {
      ScanKeepsLastDhcpEntry(c, entries[..n], gw, leaseTime, k);
    }
  }

  /** After a scan the record is valid exactly when it already was or the
      table holds a DHCP entry. */
  lemma {:induction false} ScanValidity(c: Capture, entries: seq<UnicastEntry>, gw: Ipv4Addr, leaseTime: uint32)
    ensures Scan(c, entries, gw, leaseTime).valid <==>
      c.valid || exists i :: 0 <= i < |entries| && entries[i].addrType == Dhcp
    decreases |entries|
  {
    if |entries| > 0 {
      var n := |entries| - 1;
      ScanValidity(c, entries[..n], gw, leaseTime);
      assert forall i :: 0 <= i < n ==> entries[..n][i] == entries[i];
    }
  }

  /** Any event other than an address-added one leaves the record untouched. */
  lemma HandleIgnoresOtherEvents(c: Capture, event: MgmtEvent, iface: Ipv4Config)
    requires event != Ipv4AddrAdd
    ensures Handle(c, event, iface) == c
  {
  }

  /** Nothing ever clears the validity flag: once valid, always valid. */
  lemma HandleKeepsValid(c: Capture, event: MgmtEvent, iface: Ipv4Config)
    requires c.valid
    ensures Handle(c, event, iface).valid
  {
    ScanValidity(c, iface.unicast, iface.gw, iface.leaseTime);
  }

  /** The caller's `tcp_info_t`, written through the getter's out-pointer. */
  class InfoCell {
    var value: TcpInfo

    constructor (v: TcpInfo)
      ensures value == v
    {
      value := v;
    }
  }

  /** The file's global state: `TCPInfoDHCP` and the DHCP stops requested. */
  class Client {
    var tcpInfo: TcpInfo
    var isValid: bool
    ghost var stopRequests: nat

    ghost function Record(): Capture
      reads this
    {
      Capture(tcpInfo, isValid, stopRequests)
    }

    /** `TCPInfoDHCP = { .isValide = false }`. */
    constructor ()
      ensures Record() == InitialCapture && !isValid
    {
      tcpInfo := ZeroInfo;
      isValid := false;
      stopRequests := 0;
    }

    /** `handler`. */
    method Handler(event: MgmtEvent, iface: Ipv4Config)
      modifies this
      ensures Record() == Handle(old(Record()), event, iface)
    {
      if event != Ipv4AddrAdd {
        return;
      }
      var table := iface.unicast;
      for i := 0 to |table|
        invariant Record() == Scan(old(Record()), table[..i], iface.gw, iface.leaseTime)
      {
        assert table[..i + 1][..i] == table[..i];
        if table[i].addrType == Dhcp {
          tcpInfo := TcpInfo(table[i].address, iface.gw, table[i].netmask, iface.leaseTime);
          isValid := true;
          stopRequests := stopRequests + 1;
        }
      }
      assert table[..|table|] == table;
    }

    /** `DHCP_Client_TCP_infos_get`; `dest == null` is a null out-pointer. */
    method TcpInfosGet(dest: InfoCell?) returns (ok: bool)
      modifies dest
      ensures ok <==> dest != null && isValid
      ensures ok ==> dest.value == tcpInfo
      ensures !ok && dest != null ==> dest.value == old(dest.value)
      ensures Record() == old(Record())
    {
      if dest == null {
        return false;
      }
      if !isValid {
        return false;
      }
      dest.value := tcpInfo;
      return true;
    }
  }
}

=== FILE: http_server.dfy ===
/**
  The module statics of src/HTTPServer.c as a class, and its entry points as
  methods over them. Each method is proved to leave the state and return the
  code that the function of the same name in HttpServerSpec prescribes.
 */
module HttpServer {
  import opened NetIf
  import opened HttpServerSpec

  /** The C file's module statics. */
  class Server {
    var dhcpConfigured: bool
    var semCount: nat
    var callbackRegistered: bool
    var dhcpRunning: bool
    var serverConfig: ServerConfig
    ghost var calls: seq<Call>

    ghost function State(): NetState
      reads this
    {
      NetState(dhcpConfigured, semCount, callbackRegistered, dhcpRunning, serverConfig, calls)
    }

    /** The semaphore's limit is respected. */
    ghost predicate Valid()
      reads this
    {
      semCount <= SemLimit
    }

    /** Static initialisation: `dhcp_configured = false`, everything else zero. */
    constructor ()
      ensures Valid() && State() == InitialState
    {
      dhcpConfigured := false;
      semCount := 0;
      callbackRegistered := false;
      dhcpRunning := false;
      serverConfig := ZeroConfig;
      calls := [];
    }

    /** `net_mgmt_event_handler`. */
    method HandleEvent(e: MgmtEvent)
      requires Valid()
      modifies this
      ensures Valid() && State() == HttpServerSpec.HandleEvent(old(State()), e)
    {
      match e
      case Ipv4DhcpBound =>
        dhcpConfigured := true;
        if semCount < SemLimit {
          semCount := semCount + 1;
        }
      case Ipv4AddrDel =>
        dhcpConfigured := false;
      case _ =>
    }

    /** The network-management thread delivering one event: the handler
        runs only while `mgmt_cb` is registered. */
    method Deliver(e: MgmtEvent)
      requires Valid()
      modifies this
      ensures Valid() && State() == HttpServerSpec.Deliver(old(State()), e)
    {
      if callbackRegistered {
        HandleEvent(e);
      }
    }

    /** The network-management thread delivering `events`, in order. */
    method DeliverEvents(events: seq<MgmtEvent>)
      requires Valid()
      modifies this
      ensures Valid() && State() == DeliverAll(old(State()), events)
    {
      var i := 0;
      while i < |events|
        invariant 0 <= i <= |events|
        invariant Valid()
        invariant State() == DeliverAll(old(State()), events[..i])
      {
        assert events[..i + 1][..i] == events[..i];
        Deliver(events[i]);
        i := i + 1;
      }
      assert events[..i] == events;
    }

    /** `k_sem_take` after `events` have been delivered while the caller
        waits: it succeeds at once if the semaphore was given, and otherwise
        times out since nothing else will give it. */
    method AwaitBound(events: seq<MgmtEvent>) returns (taken: bool)
      requires Valid()
      modifies this
      ensures Valid()
      ensures taken == (DeliverAll(old(State()), events).semCount > 0)
      ensures var s := DeliverAll(old(State()), events);
        State() == if taken then s.(semCount := s.semCount - 1) else s
    {
      DeliverEvents(events);
      taken := semCount > 0;
      if taken {
        semCount := semCount - 1;
      }
    }

    /** `configure_static_ip`. */
    method ConfigureStaticIp(config: ServerConfig, o: Outcomes) returns (ret: int)
      requires Valid()
      modifies this
      ensures Valid() && Step(ret, State()) == HttpServerSpec.ConfigureStaticIp(old(State()), config, o)
    {
      if config.ipv4Addr.None? {
        return -EINVAL;
      }
      if !o.addrParses {
        return -EINVAL;
      }
      calls := calls + [AddrAdd(config.ipv4Addr.value)];
      if o.addrAddResult < 0 {
        return o.addrAddResult;
      }
      if config.ipv4Netmask.Some? {
        if o.netmaskParses {
          calls := calls + [SetNetmask(config.ipv4Netmask.value)];
        }
      }
      if config.ipv4Gw.Some? {
        if o.gwParses {
          calls := calls + [SetGateway(config.ipv4Gw.value)];
        }
      }
      return 0;
    }

    /** `configure_dhcp`. */
    method ConfigureDhcp(o: Outcomes) returns (ret: int)
      requires Valid()
      modifies this
      ensures Valid() && Step(ret, State()) == HttpServerSpec.ConfigureDhcp(old(State()), o)
    {
      semCount := 0;
      callbackRegistered := true;
      calls := calls + [CallbackAdd];
      calls := calls + [DhcpStart];
      if o.dhcpStartResult < 0 {
        DeliverEvents(o.lateEvents);
        callbackRegistered := false;
        calls := calls + [CallbackDel];
        return o.dhcpStartResult;
      }
      dhcpRunning := true;
      var taken := AwaitBound(o.events);
      if !taken {
        DeliverEvents(o.lateEvents);
        dhcpRunning := false;
        calls := calls + [DhcpStop];
        callbackRegistered := false;
        calls := calls + [CallbackDel];
        return -ETIMEDOUT;
      }
      if !dhcpConfigured {
        DeliverEvents(o.lateEvents);
        callbackRegistered := false;
        calls := calls + [CallbackDel];
        return -ENONET;
      }
      return 0;
    }

    /** `http_server_setup_tls`. */
    method SetupTls(b: Build, results: CredentialResults) returns (ret: int)
      requires Valid()
      modifies this
      ensures Valid() && Step(ret, State()) == HttpServerSpec.SetupTls(old(State()), b, results)
    {
      if !(b.httpsService && b.sockoptTls) {
        return 0;
      }
      // Register unfolds once per credential attempted.
      ghost var order := CredentialOrder(b.pskEnabled);
      ghost var rest := order[1..][1..];
      assert rest == if b.pskEnabled then [Psk, PskId] else [];
      ghost var s0 := State();
      calls := calls + [CredentialAdd(ServerCertificate)];
      if results.cert < 0 {
        return results.cert;
      }
      assert Register(s0, order, results) == Register(State(), order[1..], results);
      ghost var s1 := State();
      calls := calls + [CredentialAdd(PrivateKey)];
      if results.key < 0 {
        return results.key;
      }
      assert Register(s1, order[1..], results) == Register(State(), rest, results);
      if b.pskEnabled {
        ghost var s2 := State();
        calls := calls + [CredentialAdd(Psk)];
        if results.psk < 0 {
          return results.psk;
        }
        assert Register(s2, rest, results) == Register(State(), [PskId], results);
        calls := calls + [CredentialAdd(PskId)];
        if results.pskId < 0 {
          return results.pskId;
        }
      }
      return 0;
    }

    /** `http_server_init_and_start`; `config == None` is a null pointer. */
    method InitAndStart(config: Option<ServerConfig>, b: Build, o: Outcomes) returns (ret: int)
      requires Valid()
      modifies this
      ensures Valid() && Step(ret, State()) == HttpServerSpec.InitAndStart(old(State()), config, b, o)
    {
      if config.None? {
        return -EINVAL;
      }
      var c := config.value;
      serverConfig := c;
      if !o.hasIface {
        return -ENODEV;
      }
      if c.useDhcp {
        ret := ConfigureDhcp(o);
        if ret < 0 {
          return ret;
        }
      } else {
        ret := ConfigureStaticIp(c, o);
        if ret < 0 {
          return ret;
        }
      }
      if c.enableHttps {
        ret := SetupTls(b, o.credentials);
        if ret < 0 {
          return ret;
        }
      }
      calls := calls + [ServerStart];
      if o.serverStartResult < 0 {
        return o.serverStartResult;
      }
      return 0;
    }

    /** `http_server_stop_service`; `stopResult` is what `http_server_stop`
        returns and `hasIface` whether `net_if_get_default()` is non-null. */
    method StopService(stopResult: int, hasIface: bool) returns (ret: int)
      requires Valid()
      modifies this
      ensures Valid() && Step(ret, State()) == HttpServerSpec.StopService(old(State()), stopResult, hasIface)
    {
      calls := calls + [ServerStop];
      if stopResult < 0 {
        return stopResult;
      }
      if serverConfig.useDhcp && dhcpConfigured {
        if hasIface {
          dhcpRunning := false;
          calls := calls + [DhcpStop];
          callbackRegistered := false;
          calls := calls + [CallbackDel];
          dhcpConfigured := false;
        }
      }
      return 0;
    }
  }
}

=== FILE: http_server_proofs.dfy ===
/**
  Properties of the bring-up sequencer of src/HTTPServer.c, proved about the
  functions of HttpServerSpec (and so about the class HttpServer.Server,
  whose methods are proved equal to them).
 */
module HttpServerProofs {
  import opened NetIf
  import opened HttpServerSpec

  /** The last event that touches `dhcp_configured` is a DHCP_BOUND. */
  ghost predicate BoundIsLast(events: seq<MgmtEvent>)
  {
    exists i :: 0 <= i < |events| && events[i] == Ipv4DhcpBound &&
      forall j :: i < j < |events| ==> events[j] != Ipv4AddrDel
  }

  /** The calls appended to a trace by an operation that started from `s`. */
  function Added(s: NetState, t: NetState): seq<Call>
  {
    if |s.calls| <= |t.calls| then t.calls[|s.calls|..] else []
  }

  /** The bring-up phase a call belongs to: address configuration, TLS, server start. */
  function Phase(c: Call): nat
  {
    match c
    case CredentialAdd(_) => 1
    case ServerStart => 2
    case ServerStop => 3
    case _ => 0
  }

  /** `t` sets the interface's netmask. */
  ghost predicate SetsNetmask(t: seq<Call>)
  {
    exists i :: 0 <= i < |t| && t[i].SetNetmask?
  }

  /** `t` sets the interface's gateway. */
  ghost predicate SetsGateway(t: seq<Call>)
  {
    exists i :: 0 <= i < |t| && t[i].SetGateway?
  }

  ghost predicate AllInPhase(t: seq<Call>, k: nat)
  {
    forall i :: 0 <= i < |t| ==> Phase(t[i]) == k
  }

  /** Calls of an earlier phase never come after calls of a later one. */
  ghost predicate PhasesOrdered(t: seq<Call>)
  {
    forall i, j :: 0 <= i < j < |t| ==> Phase(t[i]) <= Phase(t[j])
  }

  // ---------------------------------------------------------------------
  // The event handler

  /** The closed form of one handler step: DHCP_BOUND raises the flag and
      gives the semaphore, which saturates at one; ADDR_DEL lowers the flag;
      every other event changes nothing. The effect of a whole sequence of
      events is `DeliverAllEffect`. */
  lemma HandleEventEffect(s: NetState, e: MgmtEvent)
    requires s.semCount <= SemLimit
    ensures var t := HandleEvent(s, e);
      && (e == Ipv4DhcpBound ==> t == s.(dhcpConfigured := true, semCount := 1))
      && (e == Ipv4AddrDel ==> t == s.(dhcpConfigured := false))
      && (e != Ipv4DhcpBound && e != Ipv4AddrDel ==> t == s)
      && t.semCount <= SemLimit
  {
  }

  /** Events reach the handler only while the callback is registered. */
  lemma {:induction false} DeliverAllUnregistered(s: NetState, events: seq<MgmtEvent>)
    requires !s.callbackRegistered
    ensures DeliverAll(s, events) == s
    decreases |events|
  {
    if |events| > 0 {
      DeliverAllUnregistered(s, events[..|events| - 1]);
    }
  }

  /** What a sequence of events does while the callback is registered: only
      the flag and the semaphore change; the flag ends up set exactly when the
      last BOUND is not followed by an ADDR_DEL, or when it was set and no
      ADDR_DEL came; the semaphore is available exactly when some BOUND came
      or it already was, and never counts above one. */
  lemma {:induction false} DeliverAllEffect(s: NetState, events: seq<MgmtEvent>)
    requires s.callbackRegistered
    ensures var t := DeliverAll(s, events);
      && t == s.(dhcpConfigured := t.dhcpConfigured, semCount := t.semCount)
      && (t.dhcpConfigured <==> BoundIsLast(events) || (s.dhcpConfigured && Ipv4AddrDel !in events))
      && (s.semCount <= SemLimit ==>
            t.semCount == if Ipv4DhcpBound in events then SemLimit else s.semCount)
    decreases |events|
  {
    if |events| > 0 {
      var n := |events| - 1;
      var p, e := events[..n], events[n];
      assert events == p + [e];
      DeliverAllEffect(s, p);
      if e == Ipv4DhcpBound {
        assert BoundIsLast(events) by {
          assert events[n] == Ipv4DhcpBound;
        }
      } else if e == Ipv4AddrDel {
        assert !BoundIsLast(events) by {
          forall i | 0 <= i < |events| && events[i] == Ipv4DhcpBound
            ensures !(forall j :: i < j < |events| ==> events[j] != Ipv4AddrDel)
          {
            assert i < n && events[n] == Ipv4AddrDel;
          }
        }
      } else {
        if BoundIsLast(events) {
          var i :| 0 <= i < |events| && events[i] == Ipv4DhcpBound &&
            forall j :: i < j < |events| ==> events[j] != Ipv4AddrDel;
          assert i < n && p[i] == Ipv4DhcpBound;
          assert forall j :: i < j < |p| ==> p[j] == events[j];
          assert BoundIsLast(p);
        }
        if BoundIsLast(p) {
          var i :| 0 <= i < |p| && p[i] == Ipv4DhcpBound &&
            forall j :: i < j < |p| ==> p[j] != Ipv4AddrDel;
          assert events[i] == Ipv4DhcpBound;
          assert BoundIsLast(events);
        }
      }
    }
  }

  // ---------------------------------------------------------------------
  // configure_static_ip

  /** A missing or unparsable address fails with -EINVAL before anything is
      applied; otherwise the address is added first and the result is the
      failure of that add, or 0. Only address-configuration calls are made
      and nothing but the trace changes. */
  lemma StaticIpOutcomes(s: NetState, config: ServerConfig, o: Outcomes)
    ensures var r := ConfigureStaticIp(s, config, o);
      var added := Added(s, r.state);
      && (config.ipv4Addr.None? || !o.addrParses ==> r == Step(-EINVAL, s))
      && r.state == s.(calls := s.calls + added)
      && AllInPhase(added, 0)
      && (config.ipv4Addr.Some? && o.addrParses ==>
            && |added| >= 1
            && added[0] == AddrAdd(config.ipv4Addr.value)
            && r.ret == (if o.addrAddResult < 0 then o.addrAddResult else 0))
      && (config.ipv4Addr.Some? && o.addrParses && o.addrAddResult < 0 ==>
            added == [AddrAdd(config.ipv4Addr.value)])
      && (config.ipv4Addr.Some? && o.addrParses && o.addrAddResult >= 0 ==>
            added == [AddrAdd(config.ipv4Addr.value)]
                     + (if config.ipv4Netmask.Some? && o.netmaskParses then [SetNetmask(config.ipv4Netmask.value)] else [])
                     + (if config.ipv4Gw.Some? && o.gwParses then [SetGateway(config.ipv4Gw.value)] else []))
  {
    var r := ConfigureStaticIp(s, config, o);
    if config.ipv4Addr.None? || !o.addrParses {
      assert r == Step(-EINVAL, s);
      assert Added(s, r.state) == [];
    } else if o.addrAddResult < 0 {
      assert Added(s, r.state) == [AddrAdd(config.ipv4Addr.value)];
    } else {
      var mask := if config.ipv4Netmask.Some? && o.netmaskParses then [SetNetmask(config.ipv4Netmask.value)] else [];
      var gw := if config.ipv4Gw.Some? && o.gwParses then [SetGateway(config.ipv4Gw.value)] else [];
      assert r.state == s.(calls := s.calls + [AddrAdd(config.ipv4Addr.value)] + mask + gw);
      assert Added(s, r.state) == [AddrAdd(config.ipv4Addr.value)] + mask + gw;
    }
  }

  /** Once the address is added, a netmask or gateway is set exactly when it
      is present and parsable, and then to the configured value; a missing or
      invalid one is skipped and the address configuration still succeeds. */
  lemma {:induction false} StaticIpOptionalSettings(s: NetState, config: ServerConfig, o: Outcomes)
    requires config.ipv4Addr.Some? && o.addrParses
    ensures var r := ConfigureStaticIp(s, config, o);
      var added := Added(s, r.state);
      && (SetsNetmask(added) <==> o.addrAddResult >= 0 && config.ipv4Netmask.Some? && o.netmaskParses)
      && (SetsGateway(added) <==> o.addrAddResult >= 0 && config.ipv4Gw.Some? && o.gwParses)
      && (forall i :: 0 <= i < |added| && added[i].SetNetmask? ==> config.ipv4Netmask == Some(added[i].mask))
      && (forall i :: 0 <= i < |added| && added[i].SetGateway? ==> config.ipv4Gw == Some(added[i].gw))
      && (o.addrAddResult >= 0 ==> r.ret == 0)
  {
    var r := ConfigureStaticIp(s, config, o);
    var mask := if config.ipv4Netmask.Some? && o.netmaskParses then [SetNetmask(config.ipv4Netmask.value)] else [];
    var gw := if config.ipv4Gw.Some? && o.gwParses then [SetGateway(config.ipv4Gw.value)] else [];
    if o.addrAddResult >= 0 {
      var added := [AddrAdd(config.ipv4Addr.value)] + mask + gw;
      assert Added(s, r.state) == added;
      if mask != [] {
        assert added[1].SetNetmask?;
      }
      if gw != [] {
        assert added[|added| - 1].SetGateway?;
      }
    } else {
      assert Added(s, r.state) == [AddrAdd(config.ipv4Addr.value)];
    }
  }

  /** The return code does not depend on the netmask or the gateway. */
  lemma StaticIpIgnoresOptionalFields(s: NetState, c1: ServerConfig, c2: ServerConfig, o1: Outcomes, o2: Outcomes)
    requires c1.ipv4Addr == c2.ipv4Addr
    requires o1.addrParses == o2.addrParses && o1.addrAddResult == o2.addrAddResult
    ensures ConfigureStaticIp(s, c1, o1).ret == ConfigureStaticIp(s, c2, o2).ret
  {
  }

  // ---------------------------------------------------------------------
  // configure_dhcp

  /** The flag after `events` reach the handler, starting from `flag`. */
  ghost function FlagAfter(flag: bool, events: seq<MgmtEvent>): bool
  {
    BoundIsLast(events) || (flag && Ipv4AddrDel !in events)
  }

  /** The four ways `configure_dhcp` ends, decided by the start result and
      the events delivered during the wait: start failure, timeout (no BOUND
      at all), woken but the flag lowered again by a later ADDR_DEL, success.
      Only success leaves the callback registered; only the timeout stops the
      DHCP client. On a failure the late events, which arrive before the
      callback is removed, still set the flag and give the semaphore: a BOUND
      among them leaves the flag raised although the call failed. */
  lemma {:induction false} ConfigureDhcpOutcomes(s: NetState, o: Outcomes)
    ensures var r := ConfigureDhcp(s, o);
      var prefix := s.calls + [CallbackAdd, DhcpStart];
      var lateSem := if Ipv4DhcpBound in o.lateEvents then SemLimit else 0;
      && r.state.serverConfig == s.serverConfig
      && (o.dhcpStartResult < 0 ==>
            && r.ret == o.dhcpStartResult
            && !r.state.callbackRegistered
            && r.state.dhcpRunning == s.dhcpRunning
            && r.state.dhcpConfigured == FlagAfter(s.dhcpConfigured, o.lateEvents)
            && r.state.semCount == lateSem
            && r.state.calls == prefix + [CallbackDel])
      && (o.dhcpStartResult >= 0 && Ipv4DhcpBound !in o.events ==>
            && r.ret == -ETIMEDOUT
            && !r.state.callbackRegistered
            && !r.state.dhcpRunning
            && r.state.dhcpConfigured ==
                 FlagAfter(s.dhcpConfigured && Ipv4AddrDel !in o.events, o.lateEvents)
            && r.state.semCount == lateSem
            && r.state.calls == prefix + [DhcpStop, CallbackDel])
      && (o.dhcpStartResult >= 0 && Ipv4DhcpBound in o.events && !BoundIsLast(o.events) ==>
            && r.ret == -ENONET
            && !r.state.callbackRegistered
            && r.state.dhcpRunning
            && r.state.dhcpConfigured == BoundIsLast(o.lateEvents)
            && r.state.semCount == lateSem
            && r.state.calls == prefix + [CallbackDel])
      && (r.ret == 0 <==> o.dhcpStartResult >= 0 && BoundIsLast(o.events))
      && (r.ret == 0 ==>
            && r.state.callbackRegistered
            && r.state.dhcpRunning
            && r.state.dhcpConfigured
            && r.state.semCount == 0
            && r.state.calls == prefix)
  {
    var s1 := s.(semCount := 0, callbackRegistered := true).Called(CallbackAdd).Called(DhcpStart);
    if o.dhcpStartResult < 0 {
      DeliverAllEffect(s1, o.lateEvents);
    } else {
      var s2 := s1.(dhcpRunning := true);
      DeliverAllEffect(s2, o.events);
      var s3 := DeliverAll(s2, o.events);
      if Ipv4DhcpBound !in o.events {
        DeliverAllEffect(s3, o.lateEvents);
      } else {
        DeliverAllEffect(s3.(semCount := s3.semCount - 1), o.lateEvents);
      }
      if Ipv4DhcpBound in o.events && !BoundIsLast(o.events) {
        var i :| 0 <= i < |o.events| && o.events[i] == Ipv4DhcpBound;
        assert !(forall j :: i < j < |o.events| ==> o.events[j] != Ipv4AddrDel);
      }
      if BoundIsLast(o.events) {
        var i :| 0 <= i < |o.events| && o.events[i] == Ipv4DhcpBound &&
          forall j :: i < j < |o.events| ==> o.events[j] != Ipv4AddrDel;
        assert Ipv4DhcpBound in o.events;
      }
    }
  }

  /** After any failure of `configure_dhcp` the callback is gone, so events
      that arrive later (a DHCP_BOUND after the timeout, say) change nothing. */
  lemma LateEventsIgnoredAfterDhcpFailure(s: NetState, o: Outcomes, late: seq<MgmtEvent>)
    requires ConfigureDhcp(s, o).ret != 0
    ensures DeliverAll(ConfigureDhcp(s, o).state, late) == ConfigureDhcp(s, o).state
  {
    ConfigureDhcpOutcomes(s, o);
    DeliverAllUnregistered(ConfigureDhcp(s, o).state, late);
  }

  // ---------------------------------------------------------------------
  // http_server_setup_tls

  /** Registration follows `kinds` and stops at the first failure: the calls
      made are a prefix of `kinds`, every one but the last succeeded, the
      result is the last one's error if it failed and 0 when all succeeded.
      Nothing but the trace changes and nothing is unregistered. */
  lemma {:induction false} RegisterStopsAtFirstFailure(s: NetState, kinds: seq<Credential>, results: CredentialResults)
    ensures var r := Register(s, kinds, results);
      var added := Added(s, r.state);
      && r.state == s.(calls := s.calls + added)
      && |added| <= |kinds|
      && (forall i :: 0 <= i < |added| ==> added[i] == CredentialAdd(kinds[i]))
      && (forall i :: 0 <= i < |added| - 1 ==> results.For(kinds[i]) >= 0)
      && (r.ret < 0 ==> |added| > 0 && r.ret == results.For(kinds[|added| - 1]))
      && (r.ret >= 0 ==>
            && r.ret == 0
            && |added| == |kinds|
            && forall i :: 0 <= i < |kinds| ==> results.For(kinds[i]) >= 0)
    decreases |kinds|
  {
    if |kinds| > 0 {
      var s1 := s.Called(CredentialAdd(kinds[0]));
      if results.For(kinds[0]) >= 0 {
        RegisterStopsAtFirstFailure(s1, kinds[1..], results);
        var r := Register(s1, kinds[1..], results);
        var tail := Added(s1, r.state);
        assert Added(s, r.state) == [CredentialAdd(kinds[0])] + tail;
        forall i | 0 <= i < |kinds| && r.ret >= 0
          ensures results.For(kinds[i]) >= 0
        {
          if i > 0 {
            assert kinds[i] == kinds[1..][i - 1];
          }
        }
      } else {
        assert Added(s, s1) == [CredentialAdd(kinds[0])];
      }
    }
  }

  /** `http_server_setup_tls` registers certificate, private key, then PSK and
      PSK identity when PSK is compiled in, stopping at the first failure; with
      HTTPS or TLS sockets not compiled in it registers nothing and succeeds. */
  lemma SetupTlsOrder(s: NetState, b: Build, results: CredentialResults)
    ensures var r := SetupTls(s, b, results);
      var order := CredentialOrder(b.pskEnabled);
      var added := Added(s, r.state);
      && r.state == s.(calls := s.calls + added)
      && AllInPhase(added, 1)
      && (!(b.httpsService && b.sockoptTls) ==> r == Step(0, s))
      && (b.httpsService && b.sockoptTls ==>
            && |added| <= |order|
            && (forall i :: 0 <= i < |added| ==> added[i] == CredentialAdd(order[i]))
            && (forall i :: 0 <= i < |added| - 1 ==> results.For(order[i]) >= 0)
            && (r.ret < 0 ==> |added| > 0 && r.ret == results.For(order[|added| - 1]))
            && (r.ret >= 0 ==> r.ret == 0 && added == seq(|order|, i requires 0 <= i < |order| => CredentialAdd(order[i]))))
  {
    if b.httpsService && b.sockoptTls {
      RegisterStopsAtFirstFailure(s, CredentialOrder(b.pskEnabled), results);
    } else {
      assert Added(s, s) == [];
    }
  }

  // ---------------------------------------------------------------------
  // http_server_init_and_start

  lemma AddressStepPhase(s: NetState, config: ServerConfig, o: Outcomes)
    ensures var a := ConfigureAddress(s, config, o);
      && |s.calls| <= |a.state.calls|
      && a.state.calls == s.calls + Added(s, a.state)
      && AllInPhase(Added(s, a.state), 0)
      && a.state.serverConfig == s.serverConfig
      && a.ret <= 0
  {
    if config.useDhcp {
      ConfigureDhcpOutcomes(s, o);
    } else {
      StaticIpOutcomes(s, config, o);
    }
  }

  lemma OrderedConcat(a: seq<Call>, c: seq<Call>, z: seq<Call>)
    requires AllInPhase(a, 0) && AllInPhase(c, 1) && AllInPhase(z, 2)
    ensures PhasesOrdered(a + c + z)
  {
  }

  /** A null config fails with -EINVAL and a missing interface with -ENODEV,
      both before any address configuration is attempted; only the config is
      stored, and only in the second case. */
  lemma InitRejectsBeforeConfiguring(s: NetState, config: Option<ServerConfig>, b: Build, o: Outcomes)
    requires config.None? || !o.hasIface
    ensures var r := InitAndStart(s, config, b, o);
      && r.state.calls == s.calls
      && (config.None? ==> r == Step(-EINVAL, s))
      && (config.Some? ==> r == Step(-ENODEV, s.(serverConfig := config.value)))
  {
  }

  /** The calls `http_server_init_and_start` makes, as the concatenation of
      those of its three steps: `A` by the address step, `C` by the TLS step
      (empty without HTTPS), `Z` the server start (empty if not reached). */
  lemma InitCallsSplit(s: NetState, c: ServerConfig, b: Build, o: Outcomes)
      returns (A: seq<Call>, C: seq<Call>, Z: seq<Call>)
    requires o.hasIface
    ensures var r := InitAndStart(s, Some(c), b, o);
      var a := ConfigureAddress(s.(serverConfig := c), c, o);
      var t := SetupTls(a.state, b, o.credentials);
      && r.state.calls == s.calls + A + C + Z
      && r.state.serverConfig == c
      && A == Added(s.(serverConfig := c), a.state)
      && (a.ret >= 0 && c.enableHttps ==> C == Added(a.state, t.state))
      && (a.ret >= 0 && !c.enableHttps ==> r.state == a.state.Called(ServerStart))
      && (a.ret >= 0 && c.enableHttps && t.ret < 0 ==> r == t)
      && (a.ret >= 0 && c.enableHttps && t.ret >= 0 ==> r.state == t.state.Called(ServerStart))
      && AllInPhase(A, 0) && AllInPhase(C, 1) && AllInPhase(Z, 2)
      && (a.ret < 0 ==> r == a && C == [] && Z == [])
      && (C != [] ==> a.ret >= 0 && c.enableHttps)
      && (Z != [] <==> a.ret >= 0 && (c.enableHttps ==> t.ret >= 0))
      && (Z != [] ==> Z == [ServerStart])
  {
    var s1 := s.(serverConfig := c);
    var r := InitAndStart(s, Some(c), b, o);
    var a := ConfigureAddress(s1, c, o);
    AddressStepPhase(s1, c, o);
    A := Added(s1, a.state);
    C, Z := [], [];
    if a.ret < 0 {
      assert r == a;
    } else if c.enableHttps {
      var t := SetupTls(a.state, b, o.credentials);
      SetupTlsOrder(a.state, b, o.credentials);
      C := Added(a.state, t.state);
      if t.ret < 0 {
        assert r == t;
      } else {
        assert r.state == t.state.Called(ServerStart);
        Z := [ServerStart];
      }
    } else {
      assert r.state == a.state.Called(ServerStart);
      Z := [ServerStart];
    }
  }

  /** A trace made of an address phase, a TLS phase and a start phase has its
      phases in order, holds a credential call only if the TLS part is
      non-empty, and holds the server start only if the start part does. */
  lemma {:induction false} SplitTraceFacts(A: seq<Call>, C: seq<Call>, Z: seq<Call>)
    requires AllInPhase(A, 0) && AllInPhase(C, 1) && (Z == [] || Z == [ServerStart])
    ensures PhasesOrdered(A + C + Z)
    ensures (exists i :: 0 <= i < |A + C + Z| && Phase((A + C + Z)[i]) == 1) ==> C != []
    ensures ServerStart in A + C + Z <==> Z != []
    ensures C == [] && Z == [] ==> A + C + Z == A
  {
    var added := A + C + Z;
    OrderedConcat(A, C, Z);
    if C == [] {
      forall i | 0 <= i < |added|
        ensures Phase(added[i]) != 1
      {
        if i < |A| {
          assert added[i] == A[i];
        } else {
          assert added[i] == Z[i - |A|];
        }
      }
    }
    if ServerStart in added {
      var i :| 0 <= i < |added| && added[i] == ServerStart;
      assert i >= |A| + |C|;
    }
    if Z != [] {
      assert added[|added| - 1] == ServerStart;
    }
  }

  /** The steps run as address configuration (DHCP or static), then TLS
      (only with HTTPS enabled), then the server start: the calls they make
      come in that order, a step runs only if every earlier one succeeded,
      and the first failure is the result. */
  lemma InitStepsInOrder(s: NetState, c: ServerConfig, b: Build, o: Outcomes)
    requires o.hasIface
    ensures var r := InitAndStart(s, Some(c), b, o);
      var a := ConfigureAddress(s.(serverConfig := c), c, o);
      var t := SetupTls(a.state, b, o.credentials);
      var added := Added(s, r.state);
      && r.state.calls == s.calls + added
      && r.state.serverConfig == c
      && PhasesOrdered(added)
      && (a.ret < 0 ==> r == a && AllInPhase(added, 0))
      && ((exists i :: 0 <= i < |added| && Phase(added[i]) == 1) ==> a.ret >= 0 && c.enableHttps)
      && (ServerStart in added <==> a.ret >= 0 && (c.enableHttps ==> t.ret >= 0))
  {
    var A, C, Z := InitCallsSplit(s, c, b, o);
    var r := InitAndStart(s, Some(c), b, o);
    assert Added(s, r.state) == A + C + Z;
    SplitTraceFacts(A, C, Z);
  }

  /** `http_server_init_and_start` succeeds exactly when every step it runs
      succeeds, and otherwise returns the code of the first step that failed. */
  lemma InitReturnsFirstFailure(s: NetState, c: ServerConfig, b: Build, o: Outcomes)
    requires o.hasIface
    ensures var r := InitAndStart(s, Some(c), b, o);
      var a := ConfigureAddress(s.(serverConfig := c), c, o);
      var t := SetupTls(a.state, b, o.credentials);
      && (r.ret == 0 <==> a.ret >= 0 && (c.enableHttps ==> t.ret >= 0) && o.serverStartResult >= 0)
      && (r.ret != 0 ==> r.ret < 0)
      && (a.ret < 0 ==> r.ret == a.ret)
      && (a.ret >= 0 && c.enableHttps && t.ret < 0 ==> r.ret == t.ret)
      && (a.ret >= 0 && (c.enableHttps ==> t.ret >= 0) && o.serverStartResult < 0 ==> r.ret == o.serverStartResult)
  {
    var r := InitAndStart(s, Some(c), b, o);
    var a := ConfigureAddress(s.(serverConfig := c), c, o);
    AddressStepPhase(s.(serverConfig := c), c, o);
    var t := SetupTls(a.state, b, o.credentials);
    SetupTlsOrder(a.state, b, o.credentials);
    if a.ret < 0 {
      assert r == a;
    } else if c.enableHttps && t.ret < 0 {
      assert r == t;
    } else {
      assert r.ret == if o.serverStartResult < 0 then o.serverStartResult else 0;
    }
  }

  // ---------------------------------------------------------------------
  // http_server_stop_service

  /** A failed server stop is returned and changes nothing else; after a
      successful one, DHCP is stopped, the callback removed and the flag
      cleared exactly when the stored config used DHCP, the flag was set and
      there is an interface; then 0 is returned. */
  lemma StopServiceEffect(s: NetState, stopResult: int, hasIface: bool)
    ensures var r := StopService(s, stopResult, hasIface);
      var teardown := s.serverConfig.useDhcp && s.dhcpConfigured && hasIface;
      && (stopResult < 0 ==> r == Step(stopResult, s.Called(ServerStop)))
      && (stopResult >= 0 ==> r.ret == 0)
      && (stopResult >= 0 && !teardown ==> r.state == s.Called(ServerStop))
      && (stopResult >= 0 && teardown ==>
            r.state == s.(dhcpRunning := false, callbackRegistered := false, dhcpConfigured := false,
                          calls := s.calls + [ServerStop, DhcpStop, CallbackDel]))
  {
  }

  /** Stopping again after a successful stop tears nothing further down,
      unless the first stop found no default interface and the second one
      does: `net_if_get_default()` is asked anew by each stop, and only a
      stop that finds an interface stops DHCP and removes the callback. */
  lemma StopServiceTwice(s: NetState, first: int, second: int, hasIface1: bool, hasIface2: bool)
    requires first >= 0
    ensures var s1 := StopService(s, first, hasIface1).state;
      var r := StopService(s1, second, hasIface2);
      && (second >= 0 ==> r.ret == 0)
      && (hasIface1 || !hasIface2 ==> r.state == s1.Called(ServerStop))
      && (!hasIface1 && hasIface2 && second >= 0 && s.serverConfig.useDhcp && s.dhcpConfigured ==>
            && r.state.calls == s.calls + [ServerStop, ServerStop, DhcpStop, CallbackDel]
            && !r.state.dhcpConfigured
            && !r.state.callbackRegistered)
  {
  }
}

=== FILE: http_server_spec.dfy ===
/**
  The network bring-up and service lifecycle sequencer of src/HTTPServer.c.

  The module statics of the C file (`dhcp_configured`, the binary semaphore
  `dhcp_sem`, the registration of `mgmt_cb`, the stored `server_config`) are
  gathered in `NetState` together with whether this module has the DHCP client
  running and a trace of the calls it makes that act on the interface, the
  callback list, the DHCP client, the credential store and the server;
  queries such as `inet_pton` and `net_if_get_default` are inputs, and the
  semaphore calls are the count `semCount`. The functions below
  say what each entry point does to that state; the class `Server` in module
  HttpServer is the imperative model, whose methods are proved to behave as
  those functions say.

  Zephyr itself is not modelled. What each of its calls returns is an input
  (`Outcomes`, `Build`), and the 30 second `k_sem_take` becomes a sequence of
  events delivered to the handler, after which the semaphore is either
  available or the wait times out.
 */
module HttpServerSpec {
  import opened NetIf

  /** `struct http_server_config`. The address strings are kept as given; only
      whether `inet_pton` accepts them matters, and that is an outcome. */
  datatype ServerConfig = ServerConfig(
    ipv4Addr: Option<string>,
    ipv4Gw: Option<string>,
    ipv4Netmask: Option<string>,
    useDhcp: bool,
    httpPort: uint16,
    httpsPort: uint16,
    enableHttp: bool,
    enableHttps: bool)

  /** The zero-initialised static `server_config`. */
  const ZeroConfig := ServerConfig(None, None, None, false, 0, 0, false, false)

  /** The four TLS credentials, in the order they are registered. */
  datatype Credential = ServerCertificate | PrivateKey | Psk | PskId

  /** A traced call this module makes into Zephyr, recorded whether or not it succeeds. */
  datatype Call =
    | AddrAdd(addr: string)        // net_if_ipv4_addr_add(..., NET_ADDR_MANUAL, 0)
    | SetNetmask(mask: string)     // net_if_ipv4_set_netmask
    | SetGateway(gw: string)       // net_if_ipv4_set_gw
    | CallbackAdd                  // net_mgmt_add_event_callback(&mgmt_cb)
    | CallbackDel                  // net_mgmt_del_event_callback(&mgmt_cb)
    | DhcpStart                    // net_dhcpv4_start
    | DhcpStop                     // net_dhcpv4_stop
    | CredentialAdd(kind: Credential)  // tls_credential_add
    | ServerStart                  // http_server_start
    | ServerStop                   // http_server_stop

  /** The results of `tls_credential_add`, one per credential. */
  datatype CredentialResults = CredentialResults(cert: int, key: int, psk: int, pskId: int)
  {
    function For(kind: Credential): int
    {
      match kind
      case ServerCertificate => cert
      case PrivateKey => key
      case Psk => psk
      case PskId => pskId
    }
  }

  /** The build options the TLS setup is compiled under:
      CONFIG_NET_SAMPLE_HTTPS_SERVICE, CONFIG_NET_SOCKETS_SOCKOPT_TLS and
      CONFIG_MBEDTLS_KEY_EXCHANGE_PSK_ENABLED. */
  datatype Build = Build(httpsService: bool, sockoptTls: bool, pskEnabled: bool)

  /** What the Zephyr calls made by one `http_server_init_and_start` return. */
  datatype Outcomes = Outcomes(
    hasIface: bool,              // net_if_get_default() != NULL
    addrParses: bool,            // inet_pton(ipv4_addr) == 1
    netmaskParses: bool,         // inet_pton(ipv4_netmask) == 1
    gwParses: bool,              // inet_pton(ipv4_gw) == 1
    addrAddResult: int,          // net_if_ipv4_addr_add
    dhcpStartResult: int,        // net_dhcpv4_start
    events: seq<MgmtEvent>,      // delivered to the handler during the wait
    lateEvents: seq<MgmtEvent>,  // delivered after it, before a failing configure_dhcp removes mgmt_cb
    credentials: CredentialResults,
    serverStartResult: int)      // http_server_start

  /** The module statics, plus what this module asked of Zephyr. */
  datatype NetState = NetState(
    dhcpConfigured: bool,
    semCount: nat,
    callbackRegistered: bool,
    dhcpRunning: bool,
    serverConfig: ServerConfig,
    calls: seq<Call>)
  {
    function Called(c: Call): NetState
    {
      this.(calls := calls + [c])
    }
  }

  /** The state before any entry point has run. */
  const InitialState := NetState(false, 0, false, false, ZeroConfig, [])

  /** An entry point's return code and the state it leaves. */
  datatype Step = Step(ret: int, state: NetState)

  /** `k_sem_init(&dhcp_sem, 0, 1)`: the semaphore never counts above one. */
  const SemLimit: nat := 1

  /** `k_sem_give`: increments the count unless it is at the limit. */
  function SemGive(count: nat): nat
  {
    if count < SemLimit then count + 1 else count
  }

  /** `net_mgmt_event_handler`. */
  function HandleEvent(s: NetState, e: MgmtEvent): NetState
  {
    match e
    case Ipv4DhcpBound => s.(dhcpConfigured := true, semCount := SemGive(s.semCount))
    case Ipv4AddrDel => s.(dhcpConfigured := false)
    case _ => s
  }

  /** Delivery of one event by the network-management thread: the handler
      runs only while `mgmt_cb` is registered. */
  function Deliver(s: NetState, e: MgmtEvent): NetState
  {
    if s.callbackRegistered then HandleEvent(s, e) else s
  }

  /** Delivery of a sequence of events, in order. */
  function DeliverAll(s: NetState, events: seq<MgmtEvent>): NetState
    decreases |events|
  {
    if |events| == 0 then s
    else Deliver(DeliverAll(s, events[..|events| - 1]), events[|events| - 1])
  }

  /** `configure_static_ip`. */
  function ConfigureStaticIp(s: NetState, config: ServerConfig, o: Outcomes): Step
  {
    if config.ipv4Addr.None? || !o.addrParses then Step(-EINVAL, s)
    else
      var s1 := s.Called(AddrAdd(config.ipv4Addr.value));
      if o.addrAddResult < 0 then Step(o.addrAddResult, s1)
      else
        var s2 := if config.ipv4Netmask.Some? && o.netmaskParses
                  then s1.Called(SetNetmask(config.ipv4Netmask.value)) else s1;
        var s3 := if config.ipv4Gw.Some? && o.gwParses
                  then s2.Called(SetGateway(config.ipv4Gw.value)) else s2;
        Step(0, s3)
  }

  /** `configure_dhcp`: reset the semaphore, register the callback, start
      the DHCP client, let the events arrive, then take the semaphore. On
      every failure path the callback is still registered until the function
      removes it, so `lateEvents` reach the handler before that removal. */
  function ConfigureDhcp(s: NetState, o: Outcomes): Step
  {
    var s1 := s.(semCount := 0, callbackRegistered := true).Called(CallbackAdd).Called(DhcpStart);
    if o.dhcpStartResult < 0 then
      var s2 := DeliverAll(s1, o.lateEvents);
      Step(o.dhcpStartResult, s2.(callbackRegistered := false).Called(CallbackDel))
    else
      var s2 := DeliverAll(s1.(dhcpRunning := true), o.events);
      if s2.semCount == 0 then
        var s3 := DeliverAll(s2, o.lateEvents);
        Step(-ETIMEDOUT, s3.(dhcpRunning := false).Called(DhcpStop).(callbackRegistered := false).Called(CallbackDel))
      else
        var s3 := s2.(semCount := s2.semCount - 1);
        if !s3.dhcpConfigured then
          var s4 := DeliverAll(s3, o.lateEvents);
          Step(-ENONET, s4.(callbackRegistered := false).Called(CallbackDel))
        else
          Step(0, s3)
  }

  /** The credentials `http_server_setup_tls` registers, in order. */
  function CredentialOrder(pskEnabled: bool): seq<Credential>
  {
    [ServerCertificate, PrivateKey] + (if pskEnabled then [Psk, PskId] else [])
  }

  /** Registers `kinds` in order, stopping at the first negative result. */
  function Register(s: NetState, kinds: seq<Credential>, results: CredentialResults): Step
    decreases |kinds|
  {
    if |kinds| == 0 then Step(0, s)
    else
      var s1 := s.Called(CredentialAdd(kinds[0]));
      if results.For(kinds[0]) < 0 then Step(results.For(kinds[0]), s1)
      else Register(s1, kinds[1..], results)
  }

  /** `http_server_setup_tls`: nothing is registered unless the HTTPS service
      and TLS socket options are both compiled in. */
  function SetupTls(s: NetState, b: Build, results: CredentialResults): Step
  {
    if b.httpsService && b.sockoptTls then Register(s, CredentialOrder(b.pskEnabled), results)
    else Step(0, s)
  }

  /** The address step of `http_server_init_and_start`. */
  function ConfigureAddress(s: NetState, config: ServerConfig, o: Outcomes): Step
  {
    if config.useDhcp then ConfigureDhcp(s, o) else ConfigureStaticIp(s, config, o)
  }

  /** `http_server_init_and_start`; `None` is a null config pointer. */
  function InitAndStart(s: NetState, config: Option<ServerConfig>, b: Build, o: Outcomes): Step
  {
    if config.None? then Step(-EINVAL, s)
    else
      var c := config.value;
      var s1 := s.(serverConfig := c);
      if !o.hasIface then Step(-ENODEV, s1)
      else
        var a := ConfigureAddress(s1, c, o);
        if a.ret < 0 then a
        else
          var t := if c.enableHttps then SetupTls(a.state, b, o.credentials) else Step(0, a.state);
          if t.ret < 0 then t
          else
            var s2 := t.state.Called(ServerStart);
            if o.serverStartResult < 0 then Step(o.serverStartResult, s2) else Step(0, s2)
  }

  /** `http_server_stop_service`. */
  function StopService(s: NetState, stopResult: int, hasIface: bool): Step
  {
    var s1 := s.Called(ServerStop);
    if stopResult < 0 then Step(stopResult, s1)
    else if s1.serverConfig.useDhcp && s1.dhcpConfigured && hasIface then
      Step(0, s1.(dhcpRunning := false).Called(DhcpStop)
                .(callbackRegistered := false).Called(CallbackDel)
                .(dhcpConfigured := false))
    else Step(0, s1)
  }

  /** The default interface as `http_server_get_ip_info` reads it; `None`
      is a null `iface->config.ip.ipv4`. */
  datatype Iface = Iface(ipv4: Option<Ipv4Config>)

  /** What `http_server_get_ip_info` returns, and the address it formats into
      the caller's buffer when it succeeds. */
  datatype IpInfo = IpInfo(ret: int, written: Option<Ipv4Addr>)

  /** `http_server_get_ip_info`. `bufPresent` is whether the buffer pointer is
      non-null; `iface` is `net_if_get_default()`. */
  function GetIpInfo(bufPresent: bool, bufLen: nat, iface: Option<Iface>): (r: IpInfo)
    ensures r.ret == 0 || r.ret == -EINVAL || r.ret == -ENODEV || r.ret == -ENONET
    ensures r.ret == -EINVAL <==> !bufPresent || bufLen < 16
    ensures r.ret == -ENODEV <==> bufPresent && bufLen >= 16 && iface.None?
    ensures r.ret == -ENONET <==>
      bufPresent && bufLen >= 16 && iface.Some? &&
      (iface.value.ipv4.None? || iface.value.ipv4.value.unicast[0].addrType == Overridable)
    ensures r.written.Some? <==> r.ret == 0
    ensures r.ret == 0 ==>
      iface.Some? && iface.value.ipv4.Some? && r.written.value == iface.value.ipv4.value.unicast[0].address
  {
    if !bufPresent || bufLen < 16 then IpInfo(-EINVAL, None)
    else if iface.None? then IpInfo(-ENODEV, None)
    else
      var ipv4 := iface.value.ipv4;
      if ipv4.None? || ipv4.value.unicast[0].addrType == Overridable then IpInfo(-ENONET, None)
      else IpInfo(0, Some(ipv4.value.unicast[0].address))
  }
}

=== FILE: net_if.dfy ===
/**
  Types shared by the HTTP server sequencer and the DHCP address capture:
  the pieces of Zephyr's network-interface state both of them read, the
  network-management events they subscribe to, and the error numbers they
  return. Zephyr itself is not modelled; only the shapes of its data are.
 */
module NetIf {

  datatype Option<+T> = None | Some(value: T)

  newtype uint8 = x: int | 0 <= x < 0x100
  newtype uint16 = x: int | 0 <= x < 0x1_0000
  newtype uint32 = x: int | 0 <= x < 0x1_0000_0000

  /** An IPv4 address or netmask in network byte order (`struct in_addr`). */
  type Ipv4Addr = s: seq<uint8> | |s| == 4 witness [0, 0, 0, 0]

  const ZeroAddr: Ipv4Addr := [0, 0, 0, 0]

  /** `enum net_addr_type`: how a unicast address came to be on the interface. */
  datatype AddrType = AnyType | Autoconf | Dhcp | Manual | Overridable

  /** One slot of the interface's IPv4 unicast table. */
  datatype UnicastEntry = UnicastEntry(addrType: AddrType, address: Ipv4Addr, netmask: Ipv4Addr)

  /** The interface's unicast table: NET_IF_MAX_IPV4_ADDR slots, at least one. */
  type UnicastTable = t: seq<UnicastEntry> | |t| > 0 witness [UnicastEntry(AnyType, ZeroAddr, ZeroAddr)]

  /** The interface's IPv4 configuration as the two components read it: the
      unicast table and gateway of `iface->config.ip.ipv4`, with the DHCP
      lease time from `iface->config.dhcpv4`. */
  datatype Ipv4Config = Ipv4Config(unicast: UnicastTable, gw: Ipv4Addr, leaseTime: uint32)

  /** The network-management events the two components subscribe to; every
      other event code is `OtherEvent`. */
  datatype MgmtEvent =
    | Ipv4DhcpBound
    | Ipv4AddrAdd
    | Ipv4AddrDel
    | Ipv4DhcpStart
    | Ipv4DhcpStop
    | OtherEvent

  // Error numbers as Zephyr's C library numbers them; functions return their negation.
  const ENODEV: int := 19
  const EINVAL: int := 22
  const ENONET: int := 64
  const ETIMEDOUT: int := 116
}
